=== FILE: README.md ===
# Irrigation reconciliation logic, modelled in Dafny

The irrigation dashboard polls a Blynk bridge for three virtual pins: V0
carries the raw analog moisture reading, V1 the manual pump switch and V2 the
auto switch. Three React components turn those readings into domain state, and
this project models the integer and boolean logic inside them as pure
functions over immutable records:

- **Soil moisture sensor panel** (`SoilSensor`, on top of `Moisture`). A raw
  V0 reading goes through an optional inversion against the ADC range. The
  `adcMax || 1` guard protects the division, the scaled value is rounded and
  clamped to 0–100, and the user's calibration classifies it as dry, optimal
  or wet. A non-finite reading is ignored. The ADC-range input is sanitised to
  at least 1, and an empty or zero entry becomes 1023.
- **Hardware dashboard** (`HardwareDashboard`). A live poll derives the
  percentage from a fixed 1023 range, but takes the status and the auto-mode
  decision from the raw reading (dry below 250, wet above 700). The poll also
  does the start-edge `lastRun` update, the 2-second runtime step and the
  2.5 A / 0.5 A current estimate. The simulation tick moves the moisture by a
  random amount, given here as a parameter, and auto-starts and auto-stops
  the pump. It keeps the source's shallow-copy aliasing: a pump started on a
  tick already accrues runtime and draws current on that same tick.
- **Water pump control panel** (`PumpControl`). The pump effect applies
  `autoMode ? soilMoisture < threshold : manualOn`. Within the pump effect,
  maintenance mode overrides only the status; the maintenance button also
  sets the auto switch V2 to the new mode. The panel also covers the manual-start
  history (newest first, at most ten entries), the daily-run reset, the
  maintenance button (it writes the new mode to V2) and `formatDuration`.

Shared pieces live in `PumpLogic`: the `'1'` flag test, the mode arbiter, the
power estimate and the runtime/start-edge bookkeeping. The JavaScript number
and string semantics the code relies on live in `JsSemantics`: `Math.round`
and `Math.floor` of an exact quotient, the truncating `%` and
`String.prototype.trim`.

Clocks become a `Tick` parameter (`new Date()`). The random moisture change
becomes a `real` parameter. A text passed through `Number` becomes a `Reading`
(finite integer or non-finite). A Blynk write becomes a returned `Command`
value. Whether a write's request completed, whatever its HTTP status (`fetch`
rejects only on a network failure), becomes a boolean parameter.

Each component also has a `Run` over arbitrary sequences of its events: polls,
simulation ticks, effect runs, the daily-run reset button and form edits. The
start/stop and maintenance buttons (`TogglePump`, `ToggleMaintenance`,
`ToggleCommand`) are not events of any `Run`: they only produce a Blynk write,
whose effect arrives through a later poll of V1 or V2, and separate lemmas
follow that write back through the poll. The
invariants are proved over every such sequence. This is a superset of the
schedules React's effect and interval machinery can produce, so the
invariants hold for the real schedules too.

## Model

| member | source | states |
|---|---|---|
| JsSemantics.Clamp | src/components/SoilMoistureSensor.tsx:52 | `Math.max(lo, Math.min(hi, x))` lies in [lo, hi] and leaves in-range values alone |
| JsSemantics.ClampReal | src/components/HardwareDashboard.tsx:100 | the same clamp on reals lies in [lo, hi], leaves in-range values alone, and saturates: below lo gives lo, above hi gives hi |
| JsSemantics.RoundQuotient | src/components/SoilMoistureSensor.tsx:51 | `Math.round(n / d)` is the integer within one half of the exact quotient, with halves rounding up, for divisors of either sign |
| JsSemantics.FloorQuotient | src/components/WaterPumpControl.tsx:136-137 | `Math.floor(n / d)` is the integer r with r <= n/d < r + 1 |
| JsSemantics.JsRem | src/components/WaterPumpControl.tsx:137-138 | JavaScript `%` takes the dividend's sign, has magnitude below the divisor, and differs from the dividend by a multiple of the divisor |
| JsSemantics.TrimStart | src/components/HardwareDashboard.tsx:158-159 | leading trim returns the suffix after the leading whitespace, and that suffix starts with a non-whitespace character |
| JsSemantics.TrimEnd | src/components/HardwareDashboard.tsx:158-159 | trailing trim returns the prefix before the trailing whitespace, and that prefix ends with a non-whitespace character |
| JsSemantics.Trim | src/components/HardwareDashboard.tsx:158-159 | `trim()` returns the slice between the leading and trailing whitespace, and that slice starts and ends with non-whitespace |
| Moisture.Classify | src/components/SoilMoistureSensor.tsx:54-57 | the cascade is total and exclusive: dry iff below the dry threshold, wet iff not dry and above the wet threshold, optimal iff between them |
| Moisture.ClassifyMonotone | src/components/SoilMoistureSensor.tsx:54-57 | a wetter reading never gets a drier status, for any thresholds |
| Moisture.ClassifyNoOptimalWhenOverlapping | src/components/SoilMoistureSensor.tsx:54-57 | when the wet threshold is below the dry one, dry wins and no reading is optimal |
| Moisture.Divisor | src/components/SoilMoistureSensor.tsx:51 | the divisor is `adcMax` whenever that is nonzero and 1 when it is 0, so it is never zero and the division is always defined |
| Moisture.Mapped | src/components/SoilMoistureSensor.tsx:50 | the inverted mapping is never negative |
| Moisture.Percent | src/components/SoilMoistureSensor.tsx:50-52 | the moisture percentage lies in [0, 100] for every raw reading, ADC range and inversion |
| Moisture.PercentNearest | src/components/SoilMoistureSensor.tsx:50-52 | for an in-range mapped reading, the percentage is within one half of 100 x mapped / adcMax |
| Moisture.PercentMonotone | src/components/SoilMoistureSensor.tsx:50-52 | without inversion, the percentage is non-decreasing in the raw reading |
| Moisture.PercentAntitone | src/components/SoilMoistureSensor.tsx:50-52 | with inversion, the percentage is non-increasing in the raw reading |
| Moisture.PercentEndpoints | src/components/SoilMoistureSensor.tsx:50-52 | raw 0 gives 0% and raw adcMax gives 100%; inverted, raw 0 gives 100% and raw >= adcMax gives 0%; readings beyond either end saturate, so raw <= 0 gives 0% (100% inverted) and raw >= adcMax gives 100% (0% inverted) |
| SoilSensor.Initial | src/components/SoilMoistureSensor.tsx:17-32 | the panel starts with an ADC range of at least 1 |
| SoilSensor.CalibratedStatus | src/components/SoilMoistureSensor.tsx:54-57 | the calibration gives: dry iff percent < dryValue; otherwise wet iff percent > wetValue; otherwise optimal |
| SoilSensor.Poll | src/components/SoilMoistureSensor.tsx:47-63 | a non-finite reading leaves the panel unchanged; a finite one records it in `rawV0`, publishes the percentage `Percent(raw, adcMax, invert)`, in [0, 100], with the calibrated status and time, and keeps the sensor id, location and settings |
| SoilSensor.PollIdempotent | src/components/SoilMoistureSensor.tsx:47-63 | repeating a poll with the same reading and time changes nothing |
| SoilSensor.SanitiseAdcMax | src/components/SoilMoistureSensor.tsx:225 | the stored range is always >= 1; unparsable or zero input gives 1023; positive input is kept; negative input gives 1 |
| SoilSensor.Step | src/components/SoilMoistureSensor.tsx:193-234 | a calibration-form edit changes only the setting it names (dry threshold, wet threshold, sanitised ADC range >= 1, inversion) and leaves the published reading and last raw value unchanged until the next poll |
| SoilSensor.RunInvariant | src/components/SoilMoistureSensor.tsx:225 | after any polls and calibration edits, the range stays >= 1, so the fallback divisor of 1 is never used; the sensor id and location never change |
| PumpLogic.FlagOn | src/components/HardwareDashboard.tsx:158-159 | a V1/V2 flag reads as on iff its text is a single `1` with only whitespace around it (the control panel uses the same test at WaterPumpControl.tsx lines 76-77) |
| PumpLogic.TrimIsOne | src/components/HardwareDashboard.tsx:158-159 | `trim() === '1'` holds iff the text is a single `1` with only whitespace around it |
| PumpLogic.FlagOnSound | src/components/HardwareDashboard.tsx:158-159 | a text that trims to `1` holds a single `1` at its first non-whitespace position and whitespace everywhere else |
| PumpLogic.FlagOnComplete | src/components/HardwareDashboard.tsx:158-159 | any text that is a single `1` with only whitespace around it trims to `1` |
| PumpLogic.ShouldRun | src/components/HardwareDashboard.tsx:167 | in auto mode the pump runs iff the soil is below the threshold; otherwise it follows the manual switch (the control panel's arbiter at WaterPumpControl.tsx line 85 is the same rule) |
| PumpLogic.ShouldRunIndependence | src/components/HardwareDashboard.tsx:167 | with auto on, the pump runs iff the soil is below the threshold and the manual flag is irrelevant; with auto off, it follows the manual flag and moisture is irrelevant |
| PumpLogic.PowerDraw | src/components/WaterPumpControl.tsx:91 | the estimate is 2.5 A exactly when running, and 0.5 A otherwise |
| PumpLogic.NextLastRun | src/components/HardwareDashboard.tsx:183 | the last start time changes only on an off-to-on edge, and then to the current time |
| PumpLogic.NextRuntime | src/components/HardwareDashboard.tsx:184 | the runtime grows by exactly the step while running and is otherwise unchanged, so it never decreases |
| HardwareDashboard.Initial | src/components/HardwareDashboard.tsx:44-71 | the initial dashboard satisfies the dashboard invariant |
| HardwareDashboard.RawOrZero | src/components/HardwareDashboard.tsx:156-157 | a non-finite moisture reading counts as 0 and a finite one is kept |
| HardwareDashboard.LiveBadReadStartsPump | src/components/HardwareDashboard.tsx:156-167 | a non-finite V0 text is read as 0: the live poll shows 0% and dry, and with auto (V2) on it starts the pump |
| HardwareDashboard.LiveTick | src/components/HardwareDashboard.tsx:156-196 | after a live poll: the value is the 1023-range percentage, in [0, 100]; the status is dry iff raw < 250 and wet iff raw > 700; running follows the auto/manual rule on the raw reading; lastRun moves only on a start edge; runtime grows by 2 iff running; current is 2.5 iff running, else 0.5; voltage is 3.3; bridge details, battery and LCD backlight are unchanged |
| HardwareDashboard.LiveTickRepeat | src/components/HardwareDashboard.tsx:169-196 | repeating a live poll with the same sample and time leaves soil, running state, last start and power unchanged |
| HardwareDashboard.SimStep | src/components/HardwareDashboard.tsx:95-136 | after a simulation tick: moisture is the previous value plus the change, saturated to [0, 100], with the 30/70 status; a start happens iff auto mode is on, the pump was off and the new moisture is below the threshold; runtime grows by one second iff the pump ran or started, and by nothing otherwise; it is running afterwards iff it ran or started and the lifetime runtime is still below `pumpDuration*60`; current matches the final state; the battery drains by 0.01 floored at 0 |
| HardwareDashboard.SimStopsForeverAfterLimit | src/components/HardwareDashboard.tsx:123-130 | the auto-stop checks lifetime runtime: once it reaches the limit, no simulation tick leaves the pump running, not even one that has just auto-started it |
| HardwareDashboard.ToggleCommand | src/components/HardwareDashboard.tsx:220-227 | with a token, the button writes V1 as the opposite of the displayed running state; without one it writes nothing |
| HardwareDashboard.ToggleReadBack | src/components/HardwareDashboard.tsx:221-225 | with auto (V2) off, a live poll that reads back the V1 value the button wrote shows the pump state flipped |
| HardwareDashboard.RunKeepsGood | src/components/HardwareDashboard.tsx:95-196 | any interleaving of live polls and simulation ticks keeps moisture in [0, 100], current consistent with running, voltage 3.3 and battery in [0, 100]; runtime never decreases; bridge details and LCD backlight are never changed |
| PumpControl.Update | src/components/WaterPumpControl.tsx:84-95 | running iff (auto ? moisture < threshold : manual); status is maintenance whenever maintenance is on, otherwise running/idle per the decision; power is 2.5 iff running; lastRun moves only on a start edge; runtime grows by 2 iff running; dailyRuns is untouched |
| PumpControl.ResetDailyRuns | src/components/WaterPumpControl.tsx:111-113 | the reset sets dailyRuns to 0 and changes nothing else |
| PumpControl.InitialIsGood | src/components/WaterPumpControl.tsx:38-45 | the initial pump record satisfies the pump invariant |
| PumpControl.RunKeepsGood | src/components/WaterPumpControl.tsx:84-113 | under any sequence of effect runs and resets, dailyRuns stays 0, runtime stays even and never decreases, power matches running, and error status is never reached |
| PumpControl.Push | src/components/WaterPumpControl.tsx:102-107 | the new entry goes first, followed by the first nine earlier entries in order; length is min(10, old length + 1) |
| PumpControl.TogglePump | src/components/WaterPumpControl.tsx:97-109 | with a token, V1 is written as `!manualOn`; a "Manual start" entry is logged exactly when the request completed (whatever its HTTP status) and it asked for the pump on; without a token nothing happens; the log never grows past ten |
| PumpControl.PushAllKeepsMostRecent | src/components/WaterPumpControl.tsx:99-107 | after any series of manual starts, the log is exactly the ten most recent entries, newest first |
| PumpControl.PushKeepsOrder | src/components/WaterPumpControl.tsx:102-107 | if the clock does not run backwards, logging keeps entries ordered newest first |
| PumpControl.ToggleMaintenance | src/components/WaterPumpControl.tsx:181-187 | with a token, the maintenance button flips the mode and writes the new mode to V2; without one nothing changes |
| PumpControl.MaintenanceReadBack | src/components/WaterPumpControl.tsx:183-186 | once the V2 write is read back as the auto switch, entering maintenance gives status maintenance with the pump running iff the soil is below the threshold, and leaving it makes the pump follow the manual switch |
| PumpControl.FormatDuration | src/components/WaterPumpControl.tsx:135-140 | for a non-negative count, h*3600 + m*60 + s equals the count, with h >= 0 and 0 <= m, s < 60 |
| PumpControl.FormatDurationOfParts | src/components/WaterPumpControl.tsx:135-140 | inverse direction: formatting h*3600 + m*60 + s with m, s < 60 gives back exactly (h, m, s) |

## Behaviour of the code

A few facts about the code that a reader might expect to be otherwise, each
modelled as the code has it:

- A negative raw reading is not rejected. It maps to 0% (or, inverted, to a
  saturated value). In the sensor panel only a non-finite reading is
  ignored, and no "stale" mark is kept.
- The dashboard's live poll does not ignore a non-finite V0 text: it reads
  it as 0, which is dry, so in auto mode a bad read starts the pump
  (`HardwareDashboard.RawOrZero`, `HardwareDashboard.LiveBadReadStartsPump`).
- Dry and wet thresholds are not checked against each other. With
  overlapping thresholds dry wins and nothing is optimal
  (`Moisture.ClassifyNoOptimalWhenOverlapping`).
- Nothing counts daily runs and nothing enforces a daily cap. `dailyRuns` stays
  0 (`PumpControl.RunKeepsGood`).
- Maintenance does not reset counters, and no idle tick is forced after
  leaving it. Within the pump effect it only overrides the displayed status,
  but the maintenance button also writes the new mode to V2, the auto switch:
  entering maintenance puts the hardware in auto mode and leaving it switches
  to manual (`PumpControl.MaintenanceReadBack`).
- No transition enters or leaves `error`.
- Outbound writes are not deduplicated.
- The live status comes from the raw reading, not the percentage.

## Left out

- All Blynk HTTP I/O is left out: the fetches, URL construction, response text
  parsing beyond the `'1'` test, `isHardwareConnected` polling (the
  `esp8266.connected` update) and the silent catch blocks. A request that
  fails at the network level appears only as the `completed` parameter.
- `localStorage`/token handling and React scheduling (`useState`, `useEffect`,
  `setInterval`) are left out. The `onDataUpdate` callback receives the new
  sensor record and is not modelled separately.
- Rendering is left out: colours, icons, recommendations and the LCD text
  lines (`Soil: …%`, `Pump: ON`, `Moisture: …`, `Motor: …`), because they
  are number-to-text formatting. The LCD record keeps only its backlight.
  `formatDuration` returns its three numbers rather than the string.
- `src/components/BlynkControls.tsx` is not part of this model. It is I/O and
  UI.
- Floating point is left out. Raw readings are integers. `Math.round` and the
  divisions are modelled on exact rationals, and the simulation's moisture and
  battery use exact reals, so binary rounding and drift are not modelled.
  Numbers beyond 2^53 are not modelled either.
- `parseInt` returning NaN for thresholds, pump duration or daily runs is
  left out: those settings are integers here. NaN is modelled only for the
  ADC-range input. A NaN threshold would make every comparison with it false.
- The panel's own "Auto Mode" checkbox (`settings.autoMode`) is left out: the
  pump effect never reads it and takes auto mode from V2 instead.
- `powerLimit` and `maintenanceInterval` are left out. `powerLimit` is
  parsed from its form field and `maintenanceInterval` is only initialised;
  neither is read by the logic.
- The start button being disabled in maintenance or error (WaterPumpControl
  line 171) is left out. It is a UI guard, and `PumpControl.TogglePump`
  models the click handler itself.
- React's development-mode double invocation of the mutating simulation
  updater is left out.
- Moisture.PercentMonotone: stated for `adcMax >= 1` only. That is every
  reachable range (`SoilSensor.RunInvariant`), and a negative range is never
  stored.
- Moisture.PercentAntitone: stated for `adcMax >= 1` only, for the same
  reason.
- Moisture.PercentEndpoints: stated for `adcMax >= 1` only, for the same
  reason.
- PumpControl.FormatDuration: the decomposition is stated only for
  non-negative counts. The function follows JavaScript semantics for negative
  counts too, but the runtime it formats is never negative.
- The random moisture change of the simulation is not restricted to its
  source range [-5, 5): the simulation step's contract holds for any change.

=== FILE: hardware_dashboard.dfy ===
/** The hardware dashboard: a snapshot of the ESP8266 bridge, the soil
    reading, the pump, the LCD and the power supply, advanced either by a
    live poll of the Blynk pins V0 (raw moisture), V1 (manual switch) and
    V2 (auto switch), or by a simulation tick. */
module HardwareDashboard {
  import opened JsSemantics
  import opened Moisture
  import opened PumpLogic

  datatype Esp = Esp(connected: bool, ip: string, signal: int, uptime: string)

  /** The soil reading; the simulation moves it by fractional amounts, so it is real. */
  datatype Soil = Soil(value: real, status: Status, lastReading: Tick)

  datatype Pump = Pump(running: bool, lastRun: Option<Tick>, totalRuntime: int)

  datatype Lcd = Lcd(backlight: bool)

  datatype Power = Power(voltage: real, current: real, battery: real)

  datatype Hardware = Hardware(esp: Esp, soil: Soil, pump: Pump, lcd: Lcd, power: Power)

  /** The dashboard's pump settings form (the daily run cap is shown but
      consulted nowhere). */
  datatype PumpSettings = PumpSettings(
    autoMode: bool,
    moistureThreshold: int,
    pumpDuration: int,
    maxDailyRuns: int)

  /** The three texts fetched from V0, V1 and V2 in one live poll, the
      first already passed through `Number`. */
  datatype LiveSample = LiveSample(moisture: Reading, manualText: string, autoText: string)

  const LiveAdcMax: int := 1023
  const LiveDryBelow: int := 250
  const LiveWetAbove: int := 700
  const SimDryBelow: real := 30.0
  const SimWetAbove: real := 70.0
  const SupplyVoltage: real := 3.3
  const BatteryDrainPerTick: real := 0.01

  function Initial(now: Tick): (h: Hardware)
    ensures Good(h)
  {
    Hardware(
      Esp(false, "-", 0, "0h 0m"),
      Soil(0.0, Dry, now),
      Pump(false, None, 0),
      Lcd(true),
      Power(SupplyVoltage, 0.5, 100.0))
  }

  /** The invariant every reachable dashboard keeps. */
  predicate Good(h: Hardware)
  {
    && 0.0 <= h.soil.value <= 100.0
    && h.pump.totalRuntime >= 0
    && h.power.current == PowerDraw(h.pump.running)
    && h.power.voltage == SupplyVoltage
    && 0.0 <= h.power.battery <= 100.0
  }

  /** A non-finite moisture text counts as 0. */
  function RawOrZero(r: Reading): (v: int)
    ensures r.Finite? ==> v == r.n
    ensures r.NonFinite? ==> v == 0
  {
    match r
    case Finite(n) => n
    case NonFinite => 0
  }

  /** One live poll. The percentage is the raw reading over a fixed
      1023-count range, but the status and the auto-mode decision look at
      the raw reading itself (dry below 250, wet above 700). */
  function LiveTick(prev: Hardware, sample: LiveSample, now: Tick): (h: Hardware)
    ensures var raw := RawOrZero(sample.moisture);
      && h.soil.value == Percent(raw, LiveAdcMax, false) as real
      && (h.soil.status == Dry <==> raw < LiveDryBelow)
      && (h.soil.status == Wet <==> raw > LiveWetAbove)
      && h.soil.lastReading == now
      && (FlagOn(sample.autoText) ==> (h.pump.running <==> raw < LiveDryBelow))
      && (!FlagOn(sample.autoText) ==> (h.pump.running <==> FlagOn(sample.manualText)))
    ensures h.pump.lastRun != prev.pump.lastRun ==> h.pump.running && !prev.pump.running && h.pump.lastRun == Some(now)
    ensures h.pump.running && !prev.pump.running ==> h.pump.lastRun == Some(now)
    ensures h.pump.totalRuntime == prev.pump.totalRuntime + (if h.pump.running then 2 else 0)
    ensures h.power.current == (if h.pump.running then 2.5 else 0.5)
    ensures h.power.voltage == SupplyVoltage
    ensures h.esp == prev.esp && h.lcd == prev.lcd && h.power.battery == prev.power.battery
  {
    var raw := RawOrZero(sample.moisture);
    var running := ShouldRun(FlagOn(sample.autoText), FlagOn(sample.manualText), raw < LiveDryBelow);
    prev.(
      soil := Soil(Percent(raw, LiveAdcMax, false) as real,
                   Classify(raw as real, LiveDryBelow as real, LiveWetAbove as real),
                   now),
      pump := prev.pump.(
        running := running,
        lastRun := NextLastRun(running, prev.pump.running, prev.pump.lastRun, now),
        totalRuntime := NextRuntime(running, prev.pump.totalRuntime, 2)),
      power := prev.power.(voltage := SupplyVoltage, current := PowerDraw(running)))
  }

  /** One simulation tick, with the random moisture change as a parameter
      (`(Math.random() - 0.5) * 10`, so in [-5, 5)).

      The tick copies the snapshot shallowly, so it updates the previous
      pump record in place: once auto mode starts the pump, the later
      "was it running" tests already see it running. A pump started on this
      tick accrues a second at once and may be stopped again at once, and
      the current reflects the pump as it ends the tick. */
  function SimStep(prev: Hardware, settings: PumpSettings, delta: real, now: Tick): (h: Hardware)
    ensures 0.0 <= h.soil.value <= 100.0
    ensures 0.0 <= prev.soil.value + delta <= 100.0 ==> h.soil.value == prev.soil.value + delta
    ensures prev.soil.value + delta < 0.0 ==> h.soil.value == 0.0
    ensures prev.soil.value + delta > 100.0 ==> h.soil.value == 100.0
    ensures h.soil.status == Classify(h.soil.value, SimDryBelow, SimWetAbove)
    ensures h.soil.lastReading == now
    ensures h.pump.lastRun != prev.pump.lastRun ==> h.pump.lastRun == Some(now)
    ensures h.pump.lastRun == Some(now) && prev.pump.lastRun != Some(now) ==>
              settings.autoMode && !prev.pump.running && h.soil.value < settings.moistureThreshold as real
    ensures settings.autoMode && !prev.pump.running && h.soil.value < settings.moistureThreshold as real ==>
              h.pump.lastRun == Some(now)
    ensures var started := settings.autoMode && !prev.pump.running && h.soil.value < settings.moistureThreshold as real;
      && h.pump.totalRuntime == prev.pump.totalRuntime + (if prev.pump.running || started then 1 else 0)
      && (h.pump.running <==> (prev.pump.running || started) && h.pump.totalRuntime < settings.pumpDuration * 60)
    ensures !prev.pump.running && !settings.autoMode ==> h.pump == prev.pump
    ensures h.power.current == PowerDraw(h.pump.running)
    ensures h.power.battery == MaxReal(0.0, prev.power.battery - BatteryDrainPerTick)
    ensures h.esp == prev.esp && h.lcd == prev.lcd && h.power.voltage == prev.power.voltage
  {
    var value := ClampReal(prev.soil.value + delta, 0.0, 100.0);
    var started := settings.autoMode && !prev.pump.running && value < settings.moistureThreshold as real;
    // The pump record is shared with `prev`, so a start is visible below.
    var runningNow := prev.pump.running || started;
    var runtime := if runningNow then prev.pump.totalRuntime + 1 else prev.pump.totalRuntime;
    var running := runningNow && runtime < settings.pumpDuration * 60;
    prev.(
      soil := Soil(value, Classify(value, SimDryBelow, SimWetAbove), now),
      pump := Pump(running, if started then Some(now) else prev.pump.lastRun, runtime),
      power := prev.power.(current := PowerDraw(running),
                           battery := MaxReal(0.0, prev.power.battery - BatteryDrainPerTick)))
  }

  /** The auto-stop compares the lifetime runtime, not the current run's,
      with the duration: once the lifetime total has reached the limit, a
      simulation tick never leaves the pump running, even one that has just
      started it. */
  lemma SimStopsForeverAfterLimit(prev: Hardware, settings: PumpSettings, delta: real, now: Tick)
    requires prev.pump.totalRuntime + 1 >= settings.pumpDuration * 60
    ensures !SimStep(prev, settings, delta, now).pump.running
  {
  }

  /** A V0 text that is not a finite number counts as a reading of 0, which
      is dry; so in auto mode a bad read starts the pump. */
  lemma LiveBadReadStartsPump(prev: Hardware, manualText: string, autoText: string, now: Tick)
    requires FlagOn(autoText)
    ensures var h := LiveTick(prev, LiveSample(NonFinite, manualText, autoText), now);
            h.soil.status == Dry && h.soil.value == 0.0 && h.pump.running
  {
    RoundQuotientOfMultiple(0, LiveAdcMax);
  }

  /** The "start" button: write the opposite of the displayed pump state
      to the manual pin V1; without a token nothing is sent. */
  function ToggleCommand(h: Hardware, hasToken: bool): (c: Option<Command>)
    ensures hasToken <==> c.Some?
    ensures c.Some? ==> c.value.pin == ManualPin && c.value.on != h.pump.running
  {
    if hasToken then Some(Command(ManualPin, !h.pump.running)) else None
  }

  /** The button acts through the hardware: with auto (V2) off, the next
      live poll reads back the V1 value the button wrote, so the displayed
      pump state flips. */
  lemma ToggleReadBack(h: Hardware, m: Reading, autoText: string, now: Tick)
    requires !FlagOn(autoText)
    ensures var c := ToggleCommand(h, true).value;
            LiveTick(h, LiveSample(m, if c.on then "1" else "0", autoText), now).pump.running
              == !h.pump.running
  {
    TrimIsOne("1");
    TrimIsOne("0");
    assert OneAmidSpace("1") by {
      assert "1"[0] == '1';
    }
    assert !OneAmidSpace("0");
  }

  datatype DashboardEvent =
    | LivePolled(sample: LiveSample, now: Tick)
    | Simulated(settings: PumpSettings, delta: real, now: Tick)

  function Step(h: Hardware, e: DashboardEvent): Hardware
  {
    match e
    case LivePolled(sample, now) => LiveTick(h, sample, now)
    case Simulated(settings, delta, now) => SimStep(h, settings, delta, now)
  }

  function Run(h: Hardware, events: seq<DashboardEvent>): Hardware
    decreases |events|
  {
    if |events| == 0 then h else Run(Step(h, events[0]), events[1..])
  }

  /** Any interleaving of live polls and simulation ticks keeps the
      dashboard invariant, never lowers the runtime total, and never touches
      the bridge details or the LCD backlight. */
  lemma {:induction false} RunKeepsGood(h: Hardware, events: seq<DashboardEvent>)
    requires Good(h)
    ensures Good(Run(h, events))
    ensures Run(h, events).pump.totalRuntime >= h.pump.totalRuntime
    ensures Run(h, events).esp == h.esp && Run(h, events).lcd == h.lcd
    decreases |events|
  {
    if |events| > 0 {
      RunKeepsGood(Step(h, events[0]), events[1..]);
    }
  }

  /** A live poll depends only on the sample and the previous pump and
      power records, so repeating the same poll at the same time settles. */
  lemma LiveTickRepeat(prev: Hardware, sample: LiveSample, now: Tick)
    ensures var h := LiveTick(prev, sample, now);
            var h2 := LiveTick(h, sample, now);
            h2.soil == h.soil && h2.pump.running == h.pump.running
            && h2.pump.lastRun == h.pump.lastRun && h2.power == h.power
  {
  }
}

=== FILE: js_semantics.dfy ===
/** The few pieces of JavaScript number and string behaviour that the
    irrigation components depend on, stated over Dafny's unbounded integers
    and exact reals: `Number.isFinite`, `Math.max`/`Math.min` clamping,
    `Math.round` and `Math.floor` of a quotient, the truncating `%`
    operator, and `String.prototype.trim`. */
module JsSemantics {

  datatype Option<+T> = None | Some(value: T)

  /** A clock reading. `new Date()` is abstracted to a counter supplied by
      the caller. */
  type Tick = nat

  /** What `Number(text)` produced, as far as the components look at it:
      a finite (integral) reading, or a value `Number.isFinite` rejects. */
  datatype Reading = Finite(n: int) | NonFinite

  function Max(a: int, b: int): int { if a < b then b else a }

  function Min(a: int, b: int): int { if a < b then a else b }

  function MaxReal(a: real, b: real): real { if a < b then b else a }

  function MinReal(a: real, b: real): real { if a < b then a else b }

  /** `Math.max(lo, Math.min(hi, x))` */
  function Clamp(x: int, lo: int, hi: int): (r: int)
    ensures lo <= hi ==> lo <= r <= hi
    ensures lo <= x <= hi ==> r == x
  {
    Max(lo, Min(hi, x))
  }

  /** `Math.max(lo, Math.min(hi, x))` on reals */
  function ClampReal(x: real, lo: real, hi: real): (r: real)
    ensures lo <= hi ==> lo <= r <= hi
    ensures lo <= x <= hi ==> r == x
    ensures x < lo ==> r == lo
    ensures lo <= hi < x ==> r == hi
  {
    MaxReal(lo, MinReal(hi, x))
  }

  lemma ClampMonotone(x: int, y: int, lo: int, hi: int)
    requires x <= y
    ensures Clamp(x, lo, hi) <= Clamp(y, lo, hi)
  {
  }

  /** `Math.round(n / d)` for the exact rational quotient: the integer
      nearest to n / d, a half rounding towards positive infinity. */
  function RoundQuotient(n: int, d: int): (r: int)
    requires d != 0
    ensures (r as real) - 0.5 <= (n as real) / (d as real) < (r as real) + 0.5
  {
    var q := if d > 0 then (2 * n + d) / (2 * d) else (-2 * n - d) / (-2 * d);
    RoundQuotientNearest(n, d, q);
    q
  }

  /** The quotient computed by RoundQuotient lies within one half of n / d. */
  lemma RoundQuotientNearest(n: int, d: int, q: int)
    requires d != 0
    requires q == if d > 0 then (2 * n + d) / (2 * d) else (-2 * n - d) / (-2 * d)
    ensures (q as real) - 0.5 <= (n as real) / (d as real) < (q as real) + 0.5
  {
    // Bring the quotient to a positive divisor: n / d == m / e with e > 0.
    var m, e := if d > 0 then n else -n, if d > 0 then d else -d;
    assert (n as real) / (d as real) == (m as real) / (e as real);
    assert q == (2 * m + e) / (2 * e);
    FloorQuotientBounds(2 * m + e, 2 * e);
    assert q * (2 * e) == 2 * (q * e);
    HalfBounds(m, e, q);
  }

  /** From 2qe <= 2m + e < 2qe + 2e, q is within one half of m / e. */
  lemma HalfBounds(m: int, e: int, q: int)
    requires e > 0
    requires 2 * (q * e) <= 2 * m + e < 2 * (q * e) + 2 * e
    ensures (q as real) - 0.5 <= (m as real) / (e as real) < (q as real) + 0.5
  {
    CastMul(q, e);
    assert ((q * e) as real) - 0.5 * (e as real) <= m as real < ((q * e) as real) + 0.5 * (e as real);
    WithinHalf(q as real, m as real, e as real);
  }

  /** If m lies within half of e on either side of q * e, then m / e lies
      within one half of q. */
  lemma WithinHalf(q: real, m: real, e: real)
    requires e > 0.0
    requires q * e - 0.5 * e <= m < q * e + 0.5 * e
    ensures q - 0.5 <= m / e < q + 0.5
  {
    var x := m / e;
    DivTimes(m, e);
    assert (x - (q - 0.5)) * e == x * e - q * e + 0.5 * e;
    assert (q + 0.5 - x) * e == q * e + 0.5 * e - x * e;
    NonNegFactor(x - (q - 0.5), e);
    PosFactor(q + 0.5 - x, e);
  }

  /** If n lies in [q * d, q * d + d), then n / d lies in [q, q + 1). */
  lemma WithinOne(q: real, n: real, d: real)
    requires d > 0.0
    requires q * d <= n < q * d + d
    ensures q <= n / d < q + 1.0
  {
    var x := n / d;
    DivTimes(n, d);
    assert (x - q) * d == x * d - q * d;
    assert (q + 1.0 - x) * d == q * d + d - x * d;
    NonNegFactor(x - q, d);
    PosFactor(q + 1.0 - x, d);
  }

  lemma CastMul(a: int, b: int)
    ensures (a * b) as real == (a as real) * (b as real)
  {
  }

  lemma DivTimes(m: real, e: real)
    requires e > 0.0
    ensures (m / e) * e == m
  {
  }

  lemma NonNegFactor(a: real, c: real)
    requires c > 0.0
    requires a * c >= 0.0
    ensures a >= 0.0
  {
  }

  lemma PosFactor(a: real, c: real)
    requires c > 0.0
    requires a * c > 0.0
    ensures a > 0.0
  {
  }

  /** Euclidean division by a positive divisor is the floor of the quotient. */
  lemma FloorQuotientBounds(n: int, d: int)
    requires d > 0
    ensures (n / d) * d <= n < (n / d) * d + d
  {
  }

  lemma MulAtLeast(k: int, d: int)
    requires d > 0
    ensures k >= 1 ==> k * d >= d
    ensures k <= -1 ==> k * d <= -d
  {
    if k >= 1 {
      assert k * d == d + (k - 1) * d;
    } else if k <= -1 {
      assert k * d == -d + (k + 1) * d;
    }
  }

  /** A quotient and remainder are determined by the division equation. */
  lemma DivModUnique(n: int, d: int, q: int, r: int)
    requires d > 0
    requires n == q * d + r
    requires 0 <= r < d
    ensures n / d == q
    ensures n % d == r
  {
    var k := q - n / d;
    assert k * d == n % d - r;
    MulAtLeast(k, d);
  }

  /** Exactly one integer lies within one half of a rational number, so the
      contract of RoundQuotient determines its result. */
  lemma RoundQuotientUnique(n: int, d: int, k: int)
    requires d != 0
    requires (k as real) - 0.5 <= (n as real) / (d as real) < (k as real) + 0.5
    ensures RoundQuotient(n, d) == k
  {
  }

  /** Rounding the quotient is monotone in the numerator for a positive divisor. */
  lemma RoundQuotientMonotone(n1: int, n2: int, d: int)
    requires d > 0
    requires n1 <= n2
    ensures RoundQuotient(n1, d) <= RoundQuotient(n2, d)
  {
    var dr := d as real;
    assert (n1 as real) / dr <= (n2 as real) / dr by {
      assert (n2 as real) / dr - (n1 as real) / dr == ((n2 - n1) as real) / dr;
    }
  }

  /** `Math.floor(n / d)` for a positive divisor. */
  function FloorQuotient(n: int, d: int): (r: int)
    requires d > 0
    ensures (r as real) <= (n as real) / (d as real) < (r as real) + 1.0
  {
    var q := n / d;
    FloorQuotientBounds(n, d);
    CastMul(q, d);
    WithinOne(q as real, n as real, d as real);
    q
  }

  /** JavaScript's `%` for a positive divisor: the remainder takes the sign
      of the dividend (truncating division), unlike Dafny's Euclidean `%`. */
  function JsRem(n: int, d: int): (r: int)
    requires d > 0
    ensures n >= 0 ==> 0 <= r < d
    ensures n < 0 ==> -d < r <= 0
    ensures (n - r) % d == 0
  {
    if n >= 0 then
      var q, r := n / d, n % d;
      assert n - r == q * d;
      DivModUnique(q * d, d, q, 0);
      r
    else
      var q, r := (-n) / d, (-n) % d;
      assert n + r == (-q) * d;
      DivModUnique((-q) * d, d, -q, 0);
      -r
  }

  /** The characters `String.prototype.trim` removes: the WhiteSpace
      (TAB, VT, FF, ZWNBSP and category Zs) and LineTerminator (LF, CR,
      LS, PS) code points of ECMA-262. */
  predicate IsWhitespace(c: char)
  {
    var k := c as int;
    || k == 0x09 || k == 0x0B || k == 0x0C || k == 0x20 || k == 0xA0 || k == 0xFEFF
    || k == 0x1680 || (0x2000 <= k <= 0x200A) || k == 0x202F || k == 0x205F || k == 0x3000
    || k == 0x0A || k == 0x0D || k == 0x2028 || k == 0x2029
  }

  /** Removes leading whitespace: the result is the suffix of `s` that
      starts at its first non-whitespace character. */
  function TrimStart(s: string): (r: string)
    ensures |r| <= |s| && r == s[|s| - |r|..]
    ensures forall k :: 0 <= k < |s| - |r| ==> IsWhitespace(s[k])
    ensures |r| > 0 ==> !IsWhitespace(r[0])
  {
    if |s| > 0 && IsWhitespace(s[0]) then TrimStart(s[1..]) else s
  }

  /** Removes trailing whitespace: the result is the prefix of `s` that
      ends at its last non-whitespace character. */
  function TrimEnd(s: string): (r: string)
    ensures |r| <= |s| && r == s[..|r|]
    ensures forall k :: |r| <= k < |s| ==> IsWhitespace(s[k])
    ensures |r| > 0 ==> !IsWhitespace(r[|r| - 1])
  {
    if |s| > 0 && IsWhitespace(s[|s| - 1]) then TrimEnd(s[..|s| - 1]) else s
  }

  /** The number of leading whitespace characters of `s`. */
  function LeadingSpace(s: string): (n: nat)
    ensures n <= |s|
  {
    |s| - |TrimStart(s)|
  }

  /** `s.trim()`: the slice of `s` between its leading and trailing whitespace. */
  function Trim(s: string): (r: string)
    ensures LeadingSpace(s) + |r| <= |s|
    ensures r == s[LeadingSpace(s)..LeadingSpace(s) + |r|]
    ensures forall k :: 0 <= k < LeadingSpace(s) ==> IsWhitespace(s[k])
    ensures forall k :: LeadingSpace(s) + |r| <= k < |s| ==> IsWhitespace(s[k])
    ensures |r| > 0 ==> !IsWhitespace(r[0]) && !IsWhitespace(r[|r| - 1])
  {
    TrimFacts(s);
    TrimEnd(TrimStart(s))
  }

  lemma TrimFacts(s: string)
    ensures var r, i := TrimEnd(TrimStart(s)), LeadingSpace(s);
      && i + |r| <= |s|
      && r == s[i..i + |r|]
      && (forall k :: 0 <= k < i ==> IsWhitespace(s[k]))
      && (forall k :: i + |r| <= k < |s| ==> IsWhitespace(s[k]))
      && (|r| > 0 ==> !IsWhitespace(r[0]) && !IsWhitespace(r[|r| - 1]))
  {
    var i := LeadingSpace(s);
    var t := TrimStart(s);
    assert t == s[i..];
    TrimSlice(s, i);
  }

  /** Trailing whitespace of the suffix `s[i..]` is trailing whitespace of `s`. */
  lemma TrimSlice(s: string, i: nat)
    requires i <= |s|
    ensures i + |TrimEnd(s[i..])| <= |s|
    ensures TrimEnd(s[i..]) == s[i..i + |TrimEnd(s[i..])|]
    ensures forall k :: i + |TrimEnd(s[i..])| <= k < |s| ==> IsWhitespace(s[k])
  {
    var t := s[i..];
    var r := TrimEnd(t);
    assert r == t[..|r|];
    forall k | i + |r| <= k < |s|
      ensures IsWhitespace(s[k])
    {
      assert s[k] == t[k - i];
    }
  }
}

=== FILE: moisture.dfy ===
/** Calibration of a raw analog moisture reading into a 0-100 percentage,
    and the three-way dry/optimal/wet classification every component uses. */
module Moisture {
  import opened JsSemantics

  datatype Status = Dry | Optimal | Wet

  /** Position of a status on the dry-to-wet scale. */
  function Rank(s: Status): nat
  {
    match s
    case Dry => 0
    case Optimal => 1
    case Wet => 2
  }

  /** The ordered threshold cascade: below `dryBelow` is dry, else above
      `wetAbove` is wet, else optimal. The dry test comes first, so it wins
      even when the thresholds overlap. */
  function Classify(x: real, dryBelow: real, wetAbove: real): (s: Status)
    ensures s == Dry <==> x < dryBelow
    ensures s == Wet <==> dryBelow <= x && wetAbove < x
    ensures s == Optimal <==> dryBelow <= x <= wetAbove
  {
    if x < dryBelow then Dry
    else if x > wetAbove then Wet
    else Optimal
  }

  /** A wetter reading never gets a drier status, whatever the thresholds. */
  lemma ClassifyMonotone(x: real, y: real, dryBelow: real, wetAbove: real)
    requires x <= y
    ensures Rank(Classify(x, dryBelow, wetAbove)) <= Rank(Classify(y, dryBelow, wetAbove))
  {
  }

  /** With overlapping thresholds no reading is optimal. */
  lemma ClassifyNoOptimalWhenOverlapping(x: real, dryBelow: real, wetAbove: real)
    requires wetAbove < dryBelow
    ensures Classify(x, dryBelow, wetAbove) != Optimal
  {
  }

  /** `adcMax || 1`: a zero range falls back to 1. */
  function Divisor(adcMax: int): (d: int)
    ensures d != 0
    ensures adcMax != 0 ==> d == adcMax
    ensures adcMax == 0 ==> d == 1
  {
    if adcMax == 0 then 1 else adcMax
  }

  /** The reading after the optional inversion: `adcMax - raw`, floored at 0. */
  function Mapped(raw: int, adcMax: int, invert: bool): (m: int)
    ensures invert ==> m >= 0
  {
    if invert then Max(0, adcMax - raw) else raw
  }

  /** `clamp(round(mapped / (adcMax || 1) * 100), 0, 100)`. */
  function Percent(raw: int, adcMax: int, invert: bool): (p: int)
    ensures 0 <= p <= 100
  {
    Clamp(RoundQuotient(100 * Mapped(raw, adcMax, invert), Divisor(adcMax)), 0, 100)
  }

  /** Exactly the readings within one half percent of the scaled value:
      the percentage is the scaled reading rounded to the nearest integer,
      then clamped. */
  lemma PercentNearest(raw: int, adcMax: int, invert: bool)
    requires adcMax >= 1
    requires 0 <= Mapped(raw, adcMax, invert) <= adcMax
    ensures var x := 100.0 * (Mapped(raw, adcMax, invert) as real) / (adcMax as real);
            (Percent(raw, adcMax, invert) as real) - 0.5 <= x < (Percent(raw, adcMax, invert) as real) + 0.5
  {
    var m := Mapped(raw, adcMax, invert);
    var q := RoundQuotient(100 * m, adcMax);
    assert 100.0 * (m as real) == (100 * m) as real;
    RoundQuotientMonotone(0, 100 * m, adcMax);
    RoundQuotientMonotone(100 * m, 100 * adcMax, adcMax);
    RoundQuotientOfMultiple(0, adcMax);
    RoundQuotientOfMultiple(100, adcMax);
    assert 0 <= q <= 100;
  }

  /** Rounding an exact multiple gives the multiplier. */
  lemma RoundQuotientOfMultiple(k: int, d: int)
    requires d > 0
    ensures RoundQuotient(k * d, d) == k
  {
    CastMul(k, d);
    DivTimes(k as real, d as real);
    assert ((k * d) as real) / (d as real) == k as real;
    RoundQuotientUnique(k * d, d, k);
  }

  /** Without inversion the percentage never falls as the raw reading rises. */
  lemma PercentMonotone(raw1: int, raw2: int, adcMax: int)
    requires adcMax >= 1
    requires raw1 <= raw2
    ensures Percent(raw1, adcMax, false) <= Percent(raw2, adcMax, false)
  {
    RoundQuotientMonotone(100 * raw1, 100 * raw2, adcMax);
    ClampMonotone(RoundQuotient(100 * raw1, adcMax), RoundQuotient(100 * raw2, adcMax), 0, 100);
  }

  /** With inversion the percentage never rises as the raw reading rises. */
  lemma PercentAntitone(raw1: int, raw2: int, adcMax: int)
    requires adcMax >= 1
    requires raw1 <= raw2
    ensures Percent(raw2, adcMax, true) <= Percent(raw1, adcMax, true)
  {
    var m1, m2 := Mapped(raw1, adcMax, true), Mapped(raw2, adcMax, true);
    assert m2 <= m1;
    RoundQuotientMonotone(100 * m2, 100 * m1, adcMax);
    ClampMonotone(RoundQuotient(100 * m2, adcMax), RoundQuotient(100 * m1, adcMax), 0, 100);
  }

  /** The ends of the range: an empty reading is 0% (100% inverted) and a
      full-scale reading is 100% (0% inverted); anything beyond full scale
      saturates. */
  lemma PercentEndpoints(adcMax: int)
    requires adcMax >= 1
    ensures Percent(0, adcMax, false) == 0
    ensures Percent(adcMax, adcMax, false) == 100
    ensures Percent(0, adcMax, true) == 100
    ensures forall raw :: raw >= adcMax ==> Percent(raw, adcMax, true) == 0
    ensures forall raw :: raw >= adcMax ==> Percent(raw, adcMax, false) == 100
    ensures forall raw :: raw <= 0 ==> Percent(raw, adcMax, false) == 0
    ensures forall raw :: raw <= 0 ==> Percent(raw, adcMax, true) == 100
  {
    RoundQuotientOfMultiple(0, adcMax);
    RoundQuotientOfMultiple(100, adcMax);
    forall raw | raw >= adcMax
      ensures Percent(raw, adcMax, false) == 100
    {
      RoundQuotientMonotone(100 * adcMax, 100 * raw, adcMax);
    }
    forall raw | raw <= 0
      ensures Percent(raw, adcMax, false) == 0
    {
      RoundQuotientMonotone(100 * raw, 0, adcMax);
    }
    forall raw | raw <= 0
      ensures Percent(raw, adcMax, true) == 100
    {
      RoundQuotientMonotone(100 * adcMax, 100 * Mapped(raw, adcMax, true), adcMax);
    }
  }
}

=== FILE: pump_control.dfy ===
/** The water pump control panel: it mirrors the hardware's V1 (manual)
    and V2 (auto) switches into a pump record, keeps a short log of manual
    starts, and formats runtimes. */
module PumpControl {
  import opened JsSemantics
  import opened PumpLogic

  datatype PumpStatus = Idle | Running | Error | Maintenance

  datatype PumpData = PumpData(
    running: bool,
    lastRun: Option<Tick>,
    totalRuntime: int,
    dailyRuns: int,
    powerConsumption: real,
    status: PumpStatus)

  /** What the pump effect reads: the switches last polled from V1/V2, the
      soil moisture handed down by the parent, the threshold from the
      settings form, and the maintenance toggle. */
  datatype PumpInputs = PumpInputs(
    autoMode: bool,
    manualOn: bool,
    soilMoisture: real,
    moistureThreshold: int,
    maintenance: bool)

  const Initial: PumpData := PumpData(false, None, 0, 0, 0.5, Idle)

  /** The invariant every reachable pump record keeps. */
  predicate Good(p: PumpData)
  {
    && p.dailyRuns == 0
    && p.totalRuntime >= 0
    && p.totalRuntime % 2 == 0
    && p.powerConsumption == PowerDraw(p.running)
    && p.status != Error
    && (p.status == Running ==> p.running)
    && (p.status == Idle ==> !p.running)
  }

  /** One run of the pump effect. The run decision follows the hardware
      switches; maintenance overrides only the displayed status, while the
      running flag, the power estimate and the runtime still follow the
      decision. The daily run counter is left alone. */
  function Update(prev: PumpData, inputs: PumpInputs, now: Tick): (p: PumpData)
    ensures p.running <==>
      (if inputs.autoMode then inputs.soilMoisture < inputs.moistureThreshold as real else inputs.manualOn)
    ensures inputs.maintenance ==> p.status == Maintenance
    ensures !inputs.maintenance ==> (p.status == Running <==> p.running) && (p.status == Idle <==> !p.running)
    ensures p.status != Error
    ensures p.powerConsumption == 2.5 <==> p.running
    ensures p.powerConsumption == (if p.running then 2.5 else 0.5)
    ensures p.lastRun != prev.lastRun ==> p.running && !prev.running && p.lastRun == Some(now)
    ensures p.running && !prev.running ==> p.lastRun == Some(now)
    ensures p.totalRuntime == prev.totalRuntime + (if p.running then 2 else 0)
    ensures p.dailyRuns == prev.dailyRuns
  {
    var running := ShouldRun(inputs.autoMode, inputs.manualOn,
                             inputs.soilMoisture < inputs.moistureThreshold as real);
    var status := if inputs.maintenance then Maintenance else if running then Running else Idle;
    prev.(
      running := running,
      status := status,
      powerConsumption := PowerDraw(running),
      lastRun := NextLastRun(running, prev.running, prev.lastRun, now),
      totalRuntime := NextRuntime(running, prev.totalRuntime, 2))
  }

  /** The "reset daily runs" button. */
  function ResetDailyRuns(prev: PumpData): (p: PumpData)
    ensures p.dailyRuns == 0
    ensures p.(dailyRuns := prev.dailyRuns) == prev
  {
    prev.(dailyRuns := 0)
  }

  datatype PumpEvent =
    | Effect(inputs: PumpInputs, now: Tick)
    | DailyRunsReset

  function Step(p: PumpData, e: PumpEvent): PumpData
  {
    match e
    case Effect(inputs, now) => Update(p, inputs, now)
    case DailyRunsReset => ResetDailyRuns(p)
  }

  function Run(p: PumpData, events: seq<PumpEvent>): PumpData
    decreases |events|
  {
    if |events| == 0 then p else Run(Step(p, events[0]), events[1..])
  }

  /** Whenever the effect fires and whenever the counter is reset, the pump
      record stays Good: nothing counts daily runs, so the counter stays 0;
      the runtime only grows, in steps of 2; the power estimate matches the
      running flag; and the error status is never entered. */
  lemma {:induction false} RunKeepsGood(p: PumpData, events: seq<PumpEvent>)
    requires Good(p)
    ensures Good(Run(p, events))
    ensures Run(p, events).totalRuntime >= p.totalRuntime
    decreases |events|
  {
    if |events| > 0 {
      var next := Step(p, events[0]);
      assert next.totalRuntime % 2 == 0 by {
        assert next.totalRuntime == p.totalRuntime || next.totalRuntime == p.totalRuntime + 2;
      }
      RunKeepsGood(next, events[1..]);
    }
  }

  lemma InitialIsGood()
    ensures Good(Initial)
  {
  }

  /** One entry of the pump history. */
  datatype HistoryEntry = HistoryEntry(startTime: Tick, endTime: Tick, duration: int, reason: string)

  const HistoryCapacity: nat := 10

  function ManualStart(now: Tick): HistoryEntry
  {
    HistoryEntry(now, now, 0, "Manual start")
  }

  /** `[entry, ...history.slice(0, 9)]`: the newest entry first, then the
      nine newest of the earlier ones, in their order. */
  function Push(history: seq<HistoryEntry>, entry: HistoryEntry): (r: seq<HistoryEntry>)
    ensures |r| == Min(HistoryCapacity, |history| + 1)
    ensures r[0] == entry
    ensures r[1..] == history[..|r| - 1]
  {
    [entry] + history[..Min(HistoryCapacity - 1, |history|)]
  }

  /** The outcome of pressing the panel's start/stop button. */
  datatype ToggleOutcome = ToggleOutcome(command: Option<Command>, history: seq<HistoryEntry>)

  /** The start/stop button: write the opposite of the manual switch to V1;
      once the request has completed, whatever its HTTP status, and it
      asked for the pump on, log a manual start. Without a token nothing
      happens; a request that fails at the network level logs nothing. */
  function TogglePump(manualOn: bool, hasToken: bool, completed: bool,
                      history: seq<HistoryEntry>, now: Tick): (r: ToggleOutcome)
    ensures !hasToken ==> r == ToggleOutcome(None, history)
    ensures hasToken ==> r.command == Some(Command(ManualPin, !manualOn))
    ensures hasToken && completed && !manualOn ==> r.history == Push(history, ManualStart(now))
    ensures !(hasToken && completed && !manualOn) ==> r.history == history
    ensures |r.history| <= Max(|history|, HistoryCapacity)
  {
    if !hasToken then ToggleOutcome(None, history)
    else
      var next := !manualOn;
      var history' := if completed && next then Push(history, ManualStart(now)) else history;
      ToggleOutcome(Some(Command(ManualPin, next)), history')
  }

  /** The maintenance button flips maintenance mode and writes the new mode
      to V2, the auto switch; without a token it does nothing. */
  function ToggleMaintenance(maintenance: bool, hasToken: bool): (r: (bool, Option<Command>))
    ensures !hasToken ==> r == (maintenance, None)
    ensures hasToken ==> r.0 == !maintenance && r.1 == Some(Command(AutoPin, !maintenance))
  {
    if !hasToken then (maintenance, None)
    else (!maintenance, Some(Command(AutoPin, !maintenance)))
  }

  /** The maintenance button's V2 write is read back as the auto switch:
      entering maintenance puts the pump under the moisture rule with the
      status overridden, and leaving it hands the pump to the manual
      switch. */
  lemma MaintenanceReadBack(prev: PumpData, maintenance: bool, manualOn: bool,
                            soilMoisture: real, threshold: int, now: Tick)
    ensures var (next, cmd) := ToggleMaintenance(maintenance, true);
            var p := Update(prev, PumpInputs(cmd.value.on, manualOn, soilMoisture, threshold, next), now);
            && (next ==> p.status == Maintenance && (p.running <==> soilMoisture < threshold as real))
            && (!next ==> (p.running <==> manualOn) && (p.status == Running <==> manualOn))
  {
  }

  /** Successive manual starts, oldest first, pushed onto `history`. */
  function PushAll(history: seq<HistoryEntry>, starts: seq<Tick>): seq<HistoryEntry>
    decreases |starts|
  {
    if |starts| == 0 then history
    else Push(PushAll(history, starts[..|starts| - 1]), ManualStart(starts[|starts| - 1]))
  }

  /** The entries for `starts`, newest first. */
  function NewestFirst(starts: seq<Tick>): (r: seq<HistoryEntry>)
    ensures |r| == |starts|
    decreases |starts|
  {
    if |starts| == 0 then []
    else [ManualStart(starts[|starts| - 1])] + NewestFirst(starts[..|starts| - 1])
  }

  function Take<T>(s: seq<T>, n: nat): (r: seq<T>)
    ensures |r| == Min(n, |s|)
  {
    s[..Min(n, |s|)]
  }

  /** The log holds the ten most recent entries, newest first: after any
      run of manual starts it is exactly the first ten of the starts (newest
      first) followed by the older log. */
  lemma {:induction false} PushAllKeepsMostRecent(history: seq<HistoryEntry>, starts: seq<Tick>)
    requires |history| <= HistoryCapacity
    ensures PushAll(history, starts) == Take(NewestFirst(starts) + history, HistoryCapacity)
    decreases |starts|
  {
    if |starts| > 0 {
      var init := starts[..|starts| - 1];
      var e := ManualStart(starts[|starts| - 1]);
      PushAllKeepsMostRecent(history, init);
      var older := NewestFirst(init) + history;
      assert NewestFirst(starts) + history == [e] + older;
      PushTake(older, e);
    }
  }

  /** Pushing onto the first ten of a log is taking the first ten of the
      log with the entry in front. */
  lemma PushTake(older: seq<HistoryEntry>, e: HistoryEntry)
    ensures Push(Take(older, HistoryCapacity), e) == Take([e] + older, HistoryCapacity)
  {
    var k := Min(HistoryCapacity - 1, |older|);
    assert Take(older, HistoryCapacity)[..k] == older[..k];
    assert ([e] + older)[..k + 1] == [e] + older[..k];
  }

  /** Entries ordered newest first by start time. */
  predicate NewestFirstOrder(history: seq<HistoryEntry>)
  {
    forall i, j :: 0 <= i < j < |history| ==> history[i].startTime >= history[j].startTime
  }

  /** With a clock that does not run backwards, logging keeps the order. */
  lemma PushKeepsOrder(history: seq<HistoryEntry>, now: Tick)
    requires NewestFirstOrder(history)
    requires |history| > 0 ==> history[0].startTime <= now
    ensures NewestFirstOrder(Push(history, ManualStart(now)))
  {
    var r := Push(history, ManualStart(now));
    forall i, j | 0 <= i < j < |r|
      ensures r[i].startTime >= r[j].startTime
    {
      assert r[j] == history[j - 1];
      if i > 0 {
        assert r[i] == history[i - 1];
      }
    }
  }

  /** The runtime display `${h}h ${m}m ${s}s`, as its three numbers. */
  datatype Duration = Duration(hours: int, minutes: int, seconds: int)

  /** `formatDuration`: floor(s / 3600), floor((s % 3600) / 60) and
      s % 60 with JavaScript's truncating `%`. For a non-negative count the
      parts add back up to it, minutes and seconds each under 60. */
  function FormatDuration(total: int): (d: Duration)
    ensures total >= 0 ==>
      && d.hours >= 0
      && 0 <= d.minutes < 60
      && 0 <= d.seconds < 60
      && d.hours * 3600 + d.minutes * 60 + d.seconds == total
  {
    var rest := JsRem(total, 3600);
    var d := Duration(FloorQuotient(total, 3600), FloorQuotient(rest, 60), JsRem(total, 60));
    FormatDurationSums(total);
    d
  }

  lemma FormatDurationSums(total: int)
    ensures total >= 0 ==>
            var rest := total % 3600;
            && total / 3600 >= 0
            && 0 <= rest / 60 < 60
            && 0 <= total % 60 < 60
            && (total / 3600) * 3600 + (rest / 60) * 60 + total % 60 == total
  {
    if total >= 0 {
      var h, rest := total / 3600, total % 3600;
      var m, s := rest / 60, rest % 60;
      assert rest == m * 60 + s;
      assert total == h * 3600 + m * 60 + s;
      DivModUnique(total, 60, h * 60 + m, s);
    }
  }

  /** The inverse direction: formatting h hours, m minutes and s seconds
      (minutes and seconds under 60) gives back exactly those parts. */
  lemma FormatDurationOfParts(h: nat, m: nat, s: nat)
    requires m < 60 && s < 60
    ensures FormatDuration(h * 3600 + m * 60 + s) == Duration(h, m, s)
  {
    var total := h * 3600 + m * 60 + s;
    DivModUnique(total, 3600, h, m * 60 + s);
    DivModUnique(m * 60 + s, 60, m, s);
    DivModUnique(total, 60, h * 60 + m, s);
  }
}

=== FILE: pump_logic.dfy ===
/** Pump bookkeeping shared by the dashboard's live view and the pump
    control panel: reading the Blynk switch flags, the auto/manual mode
    arbiter, the power estimate, and the start-edge and runtime accounting.
    Virtual pin V1 carries the manual switch and V2 the auto switch. */
module PumpLogic {
  import opened JsSemantics

  datatype Pin = ManualPin | AutoPin

  /** A write to a Blynk virtual pin (`update?token=…&V1=1`). */
  datatype Command = Command(pin: Pin, on: bool)

  /** The text is a single `1` with nothing but whitespace around it. */
  predicate OneAmidSpace(text: string)
  {
    exists i :: 0 <= i < |text| && text[i] == '1'
      && forall k :: 0 <= k < |text| && k != i ==> IsWhitespace(text[k])
  }

  /** `text.trim() === '1'`: the flag reads as on exactly when its text is
      a single `1` surrounded by whitespace only. */
  function FlagOn(text: string): (on: bool)
    ensures on <==> OneAmidSpace(text)
  {
    TrimIsOne(text);
    Trim(text) == "1"
  }

  /** Both directions of the flag test, over `trim` itself. */
  lemma TrimIsOne(text: string)
    ensures Trim(text) == "1" <==> OneAmidSpace(text)
  {
    if OneAmidSpace(text) {
      var i :| 0 <= i < |text| && text[i] == '1'
        && forall k :: 0 <= k < |text| && k != i ==> IsWhitespace(text[k]);
      FlagOnComplete(text, i);
    }
    if Trim(text) == "1" {
      FlagOnSound(text);
      var i := LeadingSpace(text);
      assert 0 <= i < |text| && text[i] == '1';
    }
  }

  /** A text that trims to `1` holds a single `1` at its first
      non-whitespace position, with whitespace everywhere else. */
  lemma FlagOnSound(text: string)
    requires Trim(text) == "1"
    ensures var i := LeadingSpace(text);
            i < |text| && text[i] == '1'
            && forall k :: 0 <= k < |text| && k != i ==> IsWhitespace(text[k])
  {
  }

  /** A single `1` with whitespace everywhere else trims to `1`. */
  lemma FlagOnComplete(text: string, i: int)
    requires 0 <= i < |text| && text[i] == '1'
    requires forall k :: 0 <= k < |text| && k != i ==> IsWhitespace(text[k])
    ensures Trim(text) == "1"
  {
    var lead := LeadingSpace(text);
    var r := Trim(text);
    // Trimming stops at the first and the last non-whitespace character,
    // and the `1` at position i is the only one.
    assert !IsWhitespace(text[i]);
    assert lead <= i < lead + |r|;
    assert r[0] == text[lead] && r[|r| - 1] == text[lead + |r| - 1];
    assert lead == i && lead + |r| - 1 == i;
    assert r == ['1'];
  }

  /** The mode arbiter: in auto mode the pump runs exactly when the soil is
      below its threshold; otherwise it follows the manual switch. */
  function ShouldRun(autoOn: bool, manualOn: bool, belowThreshold: bool): (run: bool)
    ensures autoOn ==> (run <==> belowThreshold)
    ensures !autoOn ==> (run <==> manualOn)
  {
    if autoOn then belowThreshold else manualOn
  }

  /** In auto mode the manual switch has no say; in manual mode the
      moisture has none. */
  lemma ShouldRunIndependence(manual1: bool, manual2: bool, below1: bool, below2: bool)
    ensures ShouldRun(true, manual1, below1) == ShouldRun(true, manual2, below1)
    ensures ShouldRun(false, manual1, below1) == ShouldRun(false, manual1, below2)
    ensures ShouldRun(true, manual1, below1) <==> below1
    ensures ShouldRun(false, manual1, below1) <==> manual1
  {
  }

  /** Estimated current draw in amps: 2.5 while the pump runs, 0.5 idle. */
  function PowerDraw(running: bool): (amps: real)
    ensures amps == 2.5 || amps == 0.5
    ensures running <==> amps == 2.5
  {
    if running then 2.5 else 0.5
  }

  /** The last start time moves to `now` on an off-to-on edge only. */
  function NextLastRun(running: bool, wasRunning: bool, lastRun: Option<Tick>, now: Tick): (r: Option<Tick>)
    ensures r != lastRun ==> running && !wasRunning && r == Some(now)
    ensures running && !wasRunning ==> r == Some(now)
  {
    if running && !wasRunning then Some(now) else lastRun
  }

  /** The runtime accumulator grows by `step` seconds on a tick in which the
      pump runs and is otherwise unchanged. */
  function NextRuntime(running: bool, total: int, step: nat): (r: int)
    ensures r >= total
    ensures r - total == (if running then step else 0)
  {
    if running then total + step else total
  }
}

=== FILE: soil_sensor.dfy ===
/** The soil moisture sensor panel: each poll of virtual pin V0 turns the
    raw reading into a calibrated percentage and a status, and the
    calibration form edits the thresholds, the ADC range and the inversion. */
module SoilSensor {
  import opened JsSemantics
  import opened Moisture

  /** The user's calibration: below `dryValue` percent is dry, above
      `wetValue` percent is wet. */
  datatype CalibrationData = CalibrationData(dryValue: int, wetValue: int)

  datatype SensorData = SensorData(
    value: int,
    status: Status,
    lastReading: Tick,
    sensorId: string,
    location: string)

  /** The panel's state: the published reading, the last raw V0 value, and
      the calibration settings it maps with. */
  datatype Sensor = Sensor(
    data: SensorData,
    rawV0: Option<int>,
    calibration: CalibrationData,
    adcMax: int,
    invert: bool)

  const DefaultAdcMax: int := 1023

  function Initial(now: Tick): (s: Sensor)
    ensures s.adcMax >= 1
  {
    Sensor(
      SensorData(45, Dry, now, "SMS-001", "Field A"),
      None,
      CalibrationData(20, 80),
      DefaultAdcMax,
      false)
  }

  /** The status of a percentage under the user's calibration. */
  function CalibratedStatus(percent: int, cal: CalibrationData): (s: Status)
    ensures s == Dry <==> percent < cal.dryValue
    ensures s == Wet <==> cal.dryValue <= percent && cal.wetValue < percent
    ensures s == Optimal <==> cal.dryValue <= percent <= cal.wetValue
  {
    Classify(percent as real, cal.dryValue as real, cal.wetValue as real)
  }

  /** One poll of V0. A non-finite reading is ignored and leaves the panel
      as it was; a finite one records the raw value and publishes a new
      percentage and status, keeping the sensor's identity and location. */
  function Poll(s: Sensor, reading: Reading, now: Tick): (s': Sensor)
    ensures reading.NonFinite? ==> s' == s
    ensures reading.Finite? ==>
      && s'.rawV0 == Some(reading.n)
      && s'.data.value == Percent(reading.n, s.adcMax, s.invert)
      && (s'.data.status == Dry <==> s'.data.value < s.calibration.dryValue)
      && (s'.data.status == Wet <==> s.calibration.dryValue <= s'.data.value && s.calibration.wetValue < s'.data.value)
      && s'.data.lastReading == now
      && s'.data.sensorId == s.data.sensorId
      && s'.data.location == s.data.location
      && s'.calibration == s.calibration && s'.adcMax == s.adcMax && s'.invert == s.invert
  {
    match reading
    case NonFinite => s
    case Finite(raw) =>
      var percent := Percent(raw, s.adcMax, s.invert);
      s.(data := s.data.(value := percent, status := CalibratedStatus(percent, s.calibration), lastReading := now),
         rawV0 := Some(raw))
  }

  /** The ADC-range input: `Math.max(1, parseInt(text) || 1023)`, with an
      unparsable entry given as None. */
  function SanitiseAdcMax(parsed: Option<int>): (a: int)
    ensures a >= 1
    ensures parsed == None || parsed == Some(0) ==> a == DefaultAdcMax
    ensures parsed.Some? && parsed.value >= 1 ==> a == parsed.value
    ensures parsed.Some? && parsed.value < 0 ==> a == 1
  {
    match parsed
    case None => DefaultAdcMax
    case Some(n) => if n == 0 then DefaultAdcMax else Max(1, n)
  }

  /** The things that happen to the panel: a poll, or an edit of the
      calibration form. */
  datatype SensorEvent =
    | Polled(reading: Reading, now: Tick)
    | DryValueSet(dryValue: int)
    | WetValueSet(wetValue: int)
    | AdcMaxSet(parsed: Option<int>)
    | InvertSet(invert: bool)

  /** A form edit changes only the setting it names: the published reading
      and the last raw value stay as they are until the next poll, and the
      ADC range is always stored sanitised. */
  function Step(s: Sensor, e: SensorEvent): (s': Sensor)
    ensures !e.Polled? ==> s'.data == s.data && s'.rawV0 == s.rawV0
    ensures e.DryValueSet? ==> s' == s.(calibration := CalibrationData(e.dryValue, s.calibration.wetValue))
    ensures e.WetValueSet? ==> s' == s.(calibration := CalibrationData(s.calibration.dryValue, e.wetValue))
    ensures e.AdcMaxSet? ==> s'.adcMax >= 1 && s'.(adcMax := s.adcMax) == s
    ensures e.InvertSet? ==> s' == s.(invert := e.invert)
  {
    match e
    case Polled(reading, now) => Poll(s, reading, now)
    case DryValueSet(v) => s.(calibration := s.calibration.(dryValue := v))
    case WetValueSet(v) => s.(calibration := s.calibration.(wetValue := v))
    case AdcMaxSet(parsed) => s.(adcMax := SanitiseAdcMax(parsed))
    case InvertSet(b) => s.(invert := b)
  }

  function Run(s: Sensor, events: seq<SensorEvent>): Sensor
    decreases |events|
  {
    if |events| == 0 then s else Run(Step(s, events[0]), events[1..])
  }

  /** From the initial panel, every sequence of polls and form edits keeps
      the ADC range at least 1 (so the `|| 1` fallback never fires) and
      never changes the sensor's identity or location. */
  lemma {:induction false} RunInvariant(s: Sensor, events: seq<SensorEvent>)
    requires s.adcMax >= 1
    ensures Run(s, events).adcMax >= 1
    ensures Divisor(Run(s, events).adcMax) == Run(s, events).adcMax
    ensures Run(s, events).data.sensorId == s.data.sensorId
    ensures Run(s, events).data.location == s.data.location
    decreases |events|
  {
    if |events| > 0 {
      RunInvariant(Step(s, events[0]), events[1..]);
    }
  }

  /** Polling the same reading twice at the same time changes nothing the
      second time. */
  lemma PollIdempotent(s: Sensor, reading: Reading, now: Tick)
    ensures Poll(Poll(s, reading, now), reading, now) == Poll(s, reading, now)
  {
  }
}
